=== FILE: README.md ===
# Portfolio site: interaction and layout logic, modelled in Dafny

This project models the small pure decisions and the one state machine in a
personal portfolio website: the tech-stack carousel (index wrapping,
stepping, Shift+wheel, arrow keys, the touch-swipe recognizer and the
circular card layout), the career timeline's progress track and milestone
highlighting, the side scroll indicator, the achievements marquee, the
animated background's blob parameters, the reshaping of a repository list
into projects, and the theme toggle.

Browser inputs (wheel deltas, touch points, scroll sizes, intersection
entries, the reduced-motion and small-screen media queries, the resolved
theme) are parameters. Indices are `int`; pixel coordinates, deltas,
ratios and progress are `real` (exact, not IEEE doubles). JavaScript's
truncating `%` is modelled explicitly (`Modular.JsRem`) and its
`Math.round` as `floor(x + 0.5)` (`ScrollIndicator.JsRound`).

Files, one module each: `optional.dfy` (absent values), `modular.dfy`
(congruence and JavaScript remainder), `real_arith.dfy` (order facts
about real division), `carousel.dfy` and
`carousel_input.dfy` (components/tech-stack.tsx), `career_train.dfy`,
`scroll_indicator.dfy`, `achievements_belt.dfy`, `global_background.dfy`,
`github_projects.dfy` (lib/github.ts), `theme_toggle.dfy`.

Three details of the code are easy to misread; the model follows the code:
- the scroll indicator only adopts the top entry's id when that id is
  non-empty (`if (top?.id)`), so an intersecting section without an id
  leaves the current section unchanged;
- the achievements belt shows the proof link when `link` is truthy, so an
  empty-string link is hidden, not just a missing one;
- the intersection entries are ranked by a stable sort, so among entries
  with equal maximal ratio the earliest one wins.

## Model

| member | source | states |
|---|---|---|
| Modular.JsRem | components/tech-stack.tsx:27 | JavaScript's remainder lies in (-m, m) with the sign of the dividend and is congruent to it modulo m |
| Carousel.WrapIndex | components/tech-stack.tsx:24-31 | with no cards the index is 0; otherwise it lies in [0, total) and is congruent to the input modulo total, negative inputs included |
| Carousel.WrapIndexIsEuclidean | components/tech-stack.tsx:26-28 | the double JavaScript remainder equals the mathematical (Euclidean) residue for every integer input |
| Carousel.WrapIndexInRange | components/tech-stack.tsx:26-28 | an index already in range is returned unchanged |
| Carousel.InitialIndex | components/tech-stack.tsx:19 | the middle card `floor(total / 2)` is a valid index whenever there is a card |
| Carousel.Advance | components/tech-stack.tsx:33-38 | a step forward moves to the next card and wraps from the last to the first; a step back moves to the previous card and wraps from the first to the last |
| Carousel.AdvanceThenReverse | components/tech-stack.tsx:33-38 | from an in-range index, a step one way followed by a step the other way returns to it |
| Carousel.AdvanceTimesIsWrap | components/tech-stack.tsx:33-38 | k consecutive steps land on the wrapped index i + k * step: i + k forward, i - k backward |
| Carousel.FullTurnReturns | components/tech-stack.tsx:33-38 | total consecutive steps in one direction return to the starting card |
| Carousel.Distance | components/tech-stack.tsx:130-132 | for in-range indices the signed distance lies in [-total/2, total/2], is congruent to index - active modulo total, and is 0 exactly for the active card; a difference already within [-total/2, total/2] is kept as it is, so the opposite card of an even ring sits at +total/2 or -total/2 as index - active says |
| Carousel.DistanceInjective | components/tech-stack.tsx:130-132 | two cards never get the same distance from the same active card |
| Carousel.Layout | components/tech-stack.tsx:130-148 | the card's distance is the circular distance from the active card; opacity is 1 exactly for the active card, 0.6 exactly at distance 1, 0.22 otherwise; blur is 0 exactly within distance 1; scale stays in [0.58, 1]; zIndex lies in [1, total] and is total exactly for the active card; only the active card takes pointer events |
| Carousel.NearerCardsStackHigher | components/tech-stack.tsx:133-148 | a card nearer the active one stacks strictly higher and is at least as large, at least as opaque and at most as blurred |
| Carousel.ExactlyOneActive | components/tech-stack.tsx:140-148 | exactly one card is active and it stacks strictly above every other card |
| CarouselInput.Init | components/tech-stack.tsx:19-22 | the initial state is valid, starts on the middle card and holds no gesture |
| CarouselInput.Turn | components/tech-stack.tsx:170-186 | the Prev/Next buttons set the active card to the wrapped next or previous index and touch nothing else; the index stays in range and changes whenever there are at least two cards |
| CarouselInput.TurnThenReverse | components/tech-stack.tsx:170-186 | from a valid state, Next followed by Prev (or Prev followed by Next) restores the state |
| CarouselInput.DominantDelta | components/tech-stack.tsx:44 | the wheel direction comes from the delta of larger magnitude, and from the horizontal delta on a tie |
| CarouselInput.OnWheel | components/tech-stack.tsx:40-49 | without Shift nothing happens and the handler does not call preventDefault; with Shift the handler calls preventDefault, a dominant delta below 6 turns nothing, otherwise the carousel turns once in the delta's sign |
| CarouselInput.OnKeyDown | components/tech-stack.tsx:51-62 | ArrowRight turns forward, ArrowLeft turns backward, and for both the handler calls preventDefault; any other key changes nothing and the handler does not call it |
| CarouselInput.OnTouchStart | components/tech-stack.tsx:64-69 | a touch point anchors a fresh unlocked gesture; an event without a touch point changes nothing |
| CarouselInput.OnTouchMove | components/tech-stack.tsx:71-96 | without origin or touch point nothing happens; before locking, a move inside the 12px dead zone changes nothing and a vertically dominant move abandons the gesture; a move turns at most one card, only on a horizontal travel of at least 36px, in the direction against the finger, and then re-anchors the locked gesture at the touch; past the dead zone and not vertical, or already locked, the next state is exactly the locked gesture turned and re-anchored (travel of 36px or more) or kept on its origin (shorter travel); the handler calls preventDefault exactly on the moves that lock or find the gesture locked |
| CarouselInput.OnTouchEnd | components/tech-stack.tsx:98-101 | touch end and cancel clear both the origin and the lock and keep the active card |
| CarouselInput.Step | components/tech-stack.tsx:116-121 | each event goes to its own handler (Prev turns backward, Next forward, neither calls preventDefault) and every handler keeps the state valid: the index stays in range and a locked gesture always has an origin |
| CarouselInput.RunPreservesValid | components/tech-stack.tsx:116-121 | every state reachable by any sequence of events is valid |
| CarouselInput.AbandonedGestureIgnoresMoves | components/tech-stack.tsx:73-84 | once the origin is cleared, any number of further moves change nothing until the next touch start |
| CarouselInput.LockedSwipeTurnsOnce | components/tech-stack.tsx:88-93 | on a locked gesture a swipe of at least 36px turns exactly one card (forward for a left swipe) and re-anchors at the current touch |
| CareerTrain.ClampProgress | components/career-train.tsx:9 | the result lies in [0, 1], is the identity on [0, 1] and pins values outside to the nearer end |
| CareerTrain.ClampProgressIdempotent | components/career-train.tsx:9 | clamping twice equals clamping once |
| CareerTrain.ClampProgressMonotone | components/career-train.tsx:9 | clamping preserves order |
| CareerTrain.TotalSegments | components/career-train.tsx:13 | the segment count is at least 1, so dividing by it is always defined, and is count - 1 from two milestones on |
| CareerTrain.Init | components/career-train.tsx:12 | the timeline starts on the first milestone |
| CareerTrain.Share | components/career-train.tsx:45 | the share index / segments lies in [0, 1] for in-range indices, is at most 0 from the first milestone down and at least 1 from the last one up (two or more milestones), and multiplied back by the segment count gives the index |
| CareerTrain.ProgressTarget | components/career-train.tsx:44-47 | the target lies in [0, 1], is 0 on the first milestone and 1 on the last one when there are at least two |
| CareerTrain.ProgressTargetMonotone | components/career-train.tsx:44-47 | the target is monotone non-decreasing in the active index |
| CareerTrain.HandleInView | components/career-train.tsx:52-54 | the reported milestone becomes active, and reporting the active one leaves the state unchanged |
| CareerTrain.ReportAllLastWins | components/career-train.tsx:183-185 | after any run of in-view reports the last reported milestone is active |
| CareerTrain.LitDots | components/career-train.tsx:92 | dot i is lit exactly when i is at most the active index, so the lit dots form a prefix |
| CareerTrain.LitDotsCount | components/career-train.tsx:147 | the number of lit dots is the active index plus one, capped by the milestone count |
| CareerTrain.ActiveCards | components/career-train.tsx:101 | card i is highlighted exactly when i is the active index |
| CareerTrain.ActiveCardsCount | components/career-train.tsx:127 | exactly one card is highlighted when the active index is in range, none otherwise |
| CareerTrain.MarkerOffset | components/career-train.tsx:143 | every in-range marker lies in [0, 100] percent, the first at 0 and, with two or more milestones, the last at 100 |
| CareerTrain.TrainRestsOnActiveMarker | components/career-train.tsx:44-50 | the position the track and train spring toward, in percent, is exactly the left offset of the active milestone's marker (line 143) |
| CareerTrain.VariantIndex | components/career-train.tsx:115 | the floating variant index is within the three variants and is the card index for the first three cards |
| CareerTrain.VariantIndexPeriodic | components/career-train.tsx:115 | cards three apart float the same way |
| ScrollIndicator.Clamp | components/scroll-indicator.tsx:10-12 | with min at most max the result lies in [min, max], is the identity inside it, min below it and max above it |
| ScrollIndicator.ClampMonotone | components/scroll-indicator.tsx:10-12 | with min at most max, clamping preserves order |
| ScrollIndicator.MaxScroll | components/scroll-indicator.tsx:24 | the scrollable distance is at least 1 and at least the document minus the viewport height |
| ScrollIndicator.ScrollProgress | components/scroll-indicator.tsx:20-26 | progress lies in [0, 1], is 0 at the top, 1 once the scroll offset reaches the scrollable distance, and in between is exactly the scrolled fraction |
| ScrollIndicator.ScrollProgressMonotone | components/scroll-indicator.tsx:20-26 | scrolling further never lowers the progress |
| ScrollIndicator.JsRound | components/scroll-indicator.tsx:72 | rounding gives the integer within half a unit, halves rounded up |
| ScrollIndicator.BarHeight | components/scroll-indicator.tsx:72 | the bar height is the integer within half a pixel of progress * 220; it lies in [0, 220] for progress in [0, 1], 0 at the top and 220 at the bottom |
| ScrollIndicator.BarHeightMonotone | components/scroll-indicator.tsx:72 | more progress never gives a shorter bar |
| ScrollIndicator.IsTopUnique | components/scroll-indicator.tsx:46-50 | at most one entry is the first of the descending stable sort |
| ScrollIndicator.TopVisible | components/scroll-indicator.tsx:46-50 | no entry is chosen exactly when none intersects; otherwise the chosen entry intersects, has maximal ratio (missing ratio counts as 0) and is the earliest such |
| ScrollIndicator.OnIntersect | components/scroll-indicator.tsx:46-51 | with nothing intersecting the current section is kept; otherwise the top entry's id becomes current unless it is empty |
| ScrollIndicator.Init | components/scroll-indicator.tsx:16-17 | on the first render the first section is current, "" without sections, and progress is 0 (the mount effect then measures it) |
| ScrollIndicator.CurrentFlags | components/scroll-indicator.tsx:79 | link i is marked current exactly when its id equals the current id |
| ScrollIndicator.AtMostOneCurrent | components/scroll-indicator.tsx:79-88 | with distinct ids at most one link is marked current |
| ScrollIndicator.Render | components/scroll-indicator.tsx:64-88 | nothing renders without sections; otherwise the bar is progress * 220 rounded to the pixel and link i is current exactly when its id is the current id |
| ScrollIndicator.RenderMarksOnly | components/scroll-indicator.tsx:78-88 | with distinct ids and the current id belonging to section k, link k and no other is marked current |
| ScrollIndicator.InitMarksFirstOnly | components/scroll-indicator.tsx:16 | on the first render, with distinct ids, the bar is empty and exactly the first link is current |
| AchievementsBelt.Loop | components/achievements-belt.tsx:14-17 | the loop is twice as long as the items, empty for no items, holds items[i mod n] at position i, and both halves equal the items, so the slot sequence repeats with period n |
| AchievementsBelt.HalfShiftSeamless | components/achievements-belt.tsx:64-67 | in card slots, shifting the belt by n slots (one copy of the items) shows exactly the cards the unshifted belt shows in every window that fits in one copy |
| AchievementsBelt.Decimal | components/achievements-belt.tsx:33 | a position prints as a non-empty string of decimal digits, starting with 0 only for position 0, so without leading zeros |
| AchievementsBelt.ParseDecimalInverse | components/achievements-belt.tsx:33 | reading the printed digits back gives the position |
| AchievementsBelt.KeyPosition | components/achievements-belt.tsx:33 | reading the digits after the last '-' of a key gives the position back, whatever the id contains |
| AchievementsBelt.Key | components/achievements-belt.tsx:33 | a key starts with the item's id and ends, after its last '-', with the printed position, whatever the id contains |
| AchievementsBelt.KeysDistinct | components/achievements-belt.tsx:33 | keys at different positions differ, even for equal ids |
| AchievementsBelt.RenderCard | components/achievements-belt.tsx:32-56 | the proof link appears exactly for a non-empty link and points to it; the detail panel appears exactly when date or description is non-empty |
| AchievementsBelt.RenderBelt | components/achievements-belt.tsx:32-36 | the belt renders twice as many cards as items, card i being item i mod n rendered at position i |
| AchievementsBelt.BeltHalvesMatch | components/achievements-belt.tsx:14-17 | card n + i shows everything card i shows; only the key differs |
| AchievementsBelt.BeltKeysDistinct | components/achievements-belt.tsx:32-33 | no two cards on the belt share a key, even when items repeat |
| GlobalBackground.Palette | components/global-3d-bg.tsx:28-32 | the palette has five colours and is the dark one exactly when the resolved theme is "dark" |
| GlobalBackground.BlobCount | components/global-3d-bg.tsx:34 | no blobs exactly under reduced motion, otherwise 3 on mobile and 6 elsewhere |
| GlobalBackground.MakeBlob | components/global-3d-bg.tsx:36-43 | blobs cycle through three sizes and durations by i mod 3: 160/200/240 on mobile and 220/280/340 elsewhere, with durations 12/15/18 in the same order; both start coordinates below 100, drift 12 on mobile and 18 elsewhere, colour the palette entry i mod 5 |
| GlobalBackground.MakeBlobPeriodic | components/global-3d-bg.tsx:37-39 | blobs three apart share size and duration, blobs five apart share colour |
| GlobalBackground.Blobs | components/global-3d-bg.tsx:35-45 | the generated list has exactly blobCount entries |
| GlobalBackground.StartPositionsDistinct | components/global-3d-bg.tsx:40-41 | among the first hundred blobs no two share a start column or a start row |
| GlobalBackground.Render | components/global-3d-bg.tsx:53-85 | aurora bands and blobs appear exactly when mounted and not reduced, the blobs being the generated list, no two starting in the same column or row |
| GitHubProjects.NonForks | lib/github.ts:7-8 | the filter never returns more repositories than it is given |
| GitHubProjects.NonForksMembers | lib/github.ts:7-8 | the kept repositories are exactly the non-fork inputs, each with its multiplicity |
| GitHubProjects.NonForksAppend | lib/github.ts:8 | filtering keeps the original order: it distributes over concatenation |
| GitHubProjects.NonForksOfNoForks | lib/github.ts:8 | a list without forks passes the filter unchanged |
| GitHubProjects.NonForksIdempotent | lib/github.ts:8 | filtering already filtered records changes nothing |
| GitHubProjects.NonForksLength | lib/github.ts:8 | the filter drops exactly the forks: kept plus forks is the input length |
| GitHubProjects.NonForksKeepsAllIff | lib/github.ts:8 | the output is as long as the input exactly when no input is a fork |
| GitHubProjects.NonForksOfAllForks | lib/github.ts:8 | an all-fork input gives no projects |
| GitHubProjects.ToProject | lib/github.ts:9-16 | name and description are copied; stars, forks, url and lastUpdated come from stargazers_count, forks_count, html_url and pushed_at |
| GitHubProjects.ToProjectLossless | lib/github.ts:9-16 | the reshape of a non-fork record loses nothing: rebuilding a record from the project (stars as stargazers_count, forks as forks_count, url as html_url, lastUpdated as pushed_at, name and description as they are) gives the original back, and reshaping a rebuilt record gives the project back |
| GitHubProjects.GetProjects | lib/github.ts:7-16 | project i is the reshape of the i-th kept repository, so order and repeats are kept; every non-fork input appears reshaped and every project comes from an input |
| GitHubProjects.GetProjectsAppend | lib/github.ts:7-16 | the projects of a concatenation are the projects of each part, in order |
| ThemeToggle.Toggle | components/theme-toggle.tsx:9-15 | a click asks for "light" exactly when the theme is "dark", and "dark" for any other value |
| ThemeToggle.Click | components/theme-toggle.tsx:15 | after a click the theme is "light" or "dark", and dark exactly when it was not dark before |
| ThemeToggle.TwoClicksReturn | components/theme-toggle.tsx:15 | two clicks from "light" or "dark" return to it |
| ThemeToggle.ClicksAlternate | components/theme-toggle.tsx:15 | from any theme, clicks after the first alternate with period two |
| ThemeToggle.IconFor | components/theme-toggle.tsx:17 | the sun shows exactly on the dark theme, the moon otherwise |
| ThemeToggle.ClickSwapsIcon | components/theme-toggle.tsx:15-17 | every click swaps the icon |

## Left out

- Rendering: JSX structure, Tailwind classes, gradients, tooltips and layout in every component; only the decisions that choose what renders are modelled.
- Animation runtime: framer-motion springs (`useSpring`, `useTransform`), CSS keyframe timing and transitions; the career track is modelled only up to the target it springs toward.
- Continuous per-card transforms in the carousel (translateX, rotateY) are computed but no property is claimed about them beyond their definition; real numbers stand in for IEEE doubles throughout, so NaN and infinite deltas are not modelled.
- Browser APIs: scroll and resize listeners, `IntersectionObserver` registration and the lookup of section elements by id (a section whose element is missing is simply never reported), `matchMedia`, `useInView` margins.
- The `fetch`/`json` calls of `getProjects`: network I/O; the request URL is built from an undefined identifier (lib/github.ts:3), so as written evaluating it throws before any request is made and the reshape is never reached; the URL also ignores the `username` argument. Only the filter and reshape of the records a working fetch would return are modelled.
- The repository-statistics route (app/api/github/[repo]/route.ts) is not part of this model: it is a network proxy, not part of the interaction logic.
- Static data tables under lib/ and page composition (hero, sections, footer, hire form, three.js scene, card tilt): configuration and presentation with no decision logic.
- `useReducedMotion` may return null before it knows; that is modelled as `false`, which is how the component's falsy test treats it.
- The repository record's `fork` field is taken as a boolean; other falsy JSON values for it are not modelled.
- CarouselInput.OnWheel, CarouselInput.OnKeyDown, CarouselInput.OnTouchMove: `preventDefault` is a flag recording that the handler calls it, not a claim about its effect; React attaches wheel and touch-move listeners as passive, where the browser ignores the call.
- AchievementsBelt.HalfShiftSeamless: positions are card slots and the -50% shift is taken as exactly n slots. In the page, `translateX(-50%)` is half the flex container's own width, which without a content-sized width class is its parent's width; even a content-sized belt of 2n cards has 2n - 1 gaps, so its half is n cards plus n - 1/2 gaps. Pixel widths and gaps are not modelled.

=== FILE: achievements_belt.dfy ===
/**
 * The achievements belt: a horizontal marquee that shows every achievement
 * twice in a row, so that scrolling it left by half its width lands on a
 * frame identical to the first and the animation can restart unseen.
 */
module AchievementsBelt {
  import opened Optional
  import Modular

  /** An achievement record as the belt reads it. */
  datatype Achievement = Achievement(
    id: string,
    title: string,
    date: string,
    description: string,
    link: Option<string>)

  /** The belt's item sequence: the achievements, then the same again. */
  function Loop<T>(items: seq<T>): (loop: seq<T>)
    ensures |loop| == 2 * |items|
    ensures |items| == 0 ==> loop == []
    ensures forall i :: 0 <= i < |loop| ==> loop[i] == items[i % |items|]
    ensures loop[..|items|] == loop[|items|..] == items
  {
    items + items
  }

  /** The items visible in a window of `width` slots starting at slot `start`. */
  function Window<T>(loop: seq<T>, start: nat, width: nat): seq<T>
    requires start + width <= |loop|
  {
    loop[start..start + width]
  }

  /** Translating the belt by half its length (-50%) shows exactly what the
      unshifted belt shows, for every window that fits in one half. */
  lemma HalfShiftSeamless<T>(items: seq<T>, start: nat, width: nat)
    requires start + width <= |items|
    ensures Window(Loop(items), start + |items|, width) == Window(Loop(items), start, width)
  {
    var loop := Loop(items);
    var n := |items|;
    assert loop[start + n..start + n + width] == loop[n..][start..start + width];
    assert loop[start..start + width] == loop[..n][start..start + width];
  }

  // ---- Decimal rendering of a position, as in a template string ----

  predicate IsDigit(c: char) { '0' <= c <= '9' }

  function DigitChar(d: nat): (c: char)
    requires d < 10
    ensures IsDigit(c)
  {
    ('0' as int + d) as char
  }

  function DigitValue(c: char): (d: nat)
    requires IsDigit(c)
    ensures d < 10 && DigitChar(d) == c
  {
    (c as int - '0' as int) as nat
  }

  /** `${n}` for a non-negative integer: decimal digits without leading zeros. */
  function Decimal(n: nat): (s: string)
    ensures |s| > 0
    ensures forall k :: 0 <= k < |s| ==> IsDigit(s[k])
    ensures s[0] == '0' <==> n == 0
    ensures |s| > 1 ==> s[0] != '0'
    decreases n
  {
    if n < 10 then [DigitChar(n)] else Decimal(n / 10) + [DigitChar(n % 10)]
  }

  /** Reads a string of decimal digits back as a number. */
  function ParseDecimal(s: string): nat
    requires forall k :: 0 <= k < |s| ==> IsDigit(s[k])
    decreases |s|
  {
    if |s| == 0 then 0
    else ParseDecimal(s[..|s| - 1]) * 10 + DigitValue(s[|s| - 1])
  }

  /** Reading the digits of `n` back gives `n`. */
  lemma {:induction false} ParseDecimalInverse(n: nat)
    ensures ParseDecimal(Decimal(n)) == n
    decreases n
  {
    var s := Decimal(n);
    if n < 10 {
      assert s[..0] == [];
      assert DigitValue(DigitChar(n)) == n;
    } else {
      assert s[..|s| - 1] == Decimal(n / 10);
      ParseDecimalInverse(n / 10);
      assert DigitValue(DigitChar(n % 10)) == n % 10;
    }
  }

  /** Distinct numbers print differently. */
  lemma DecimalInjective(a: nat, b: nat)
    requires Decimal(a) == Decimal(b)
    ensures a == b
  {
    ParseDecimalInverse(a);
    ParseDecimalInverse(b);
  }

  // ---- Item keys ----

  /** The text after the last '-', or the whole string when there is none. */
  function AfterLastDash(s: string): string
    decreases |s|
  {
    if |s| == 0 then s
    else if s[|s| - 1] == '-' then ""
    else AfterLastDash(s[..|s| - 1]) + [s[|s| - 1]]
  }

  /** A suffix without dashes is what follows the last dash. */
  lemma {:induction false} AfterLastDashOf(p: string, t: string)
    requires forall k :: 0 <= k < |t| ==> t[k] != '-'
    ensures AfterLastDash(p + "-" + t) == t
    decreases |t|
  {
    var s := p + "-" + t;
    if |t| == 0 {
      assert s[|s| - 1] == '-';
    } else {
      var t' := t[..|t| - 1];
      assert s[..|s| - 1] == p + "-" + t';
      AfterLastDashOf(p, t');
      assert t' + [t[|t| - 1]] == t;
    }
  }

  /** No printed position contains a dash. */
  lemma DecimalHasNoDash(i: nat)
    ensures forall k :: 0 <= k < |Decimal(i)| ==> Decimal(i)[k] != '-'
  {
    forall k | 0 <= k < |Decimal(i)|
      ensures Decimal(i)[k] != '-'
    {
      assert IsDigit(Decimal(i)[k]);
    }
  }

  /** The React key of the item at belt position `i`: `${id}-${i}`. The
      position is what follows the key's last dash, whatever the id holds. */
  function Key(id: string, i: nat): (k: string)
    ensures |k| > |id| && k[..|id|] == id
    ensures AfterLastDash(k) == Decimal(i)
  {
    DecimalHasNoDash(i);
    AfterLastDashOf(id, Decimal(i));
    assert (id + "-" + Decimal(i))[..|id|] == id;
    id + "-" + Decimal(i)
  }

  /** The position is recoverable from a key whatever the id contains. */
  lemma KeyPosition(id: string, i: nat)
    ensures AfterLastDash(Key(id, i)) == Decimal(i)
    ensures ParseDecimal(AfterLastDash(Key(id, i))) == i
  {
    ParseDecimalInverse(i);
  }

  /** Keys at different positions differ, even for the same or dashed ids. */
  lemma KeysDistinct(a: string, b: string, i: nat, j: nat)
    requires i != j
    ensures Key(a, i) != Key(b, j)
  {
    KeyPosition(a, i);
    KeyPosition(b, j);
  }

  /** One rendered belt card. */
  datatype BeltCard = BeltCard(
    key: string,
    title: string,
    proofLink: Option<string>,
    detail: Option<(string, string)>)

  /** The card at belt position `i`: the proof link only for a non-empty
      link, the detail panel only when there is a date or a description. */
  function RenderCard(a: Achievement, i: nat): (c: BeltCard)
    ensures c.title == a.title
    ensures c.proofLink.Some? <==> a.link.Some? && a.link.value != ""
    ensures c.proofLink.Some? ==> c.proofLink == a.link
    ensures c.detail.Some? <==> a.description != "" || a.date != ""
    ensures c.detail.Some? ==> c.detail.value == (a.date, a.description)
    ensures AfterLastDash(c.key) == Decimal(i)
  {
    KeyPosition(a.id, i);
    BeltCard(
      Key(a.id, i),
      a.title,
      if a.link.Some? && a.link.value != "" then a.link else None,
      if a.description != "" || a.date != "" then Some((a.date, a.description)) else None)
  }

  /** The whole belt. */
  function RenderBelt(items: seq<Achievement>): (cards: seq<BeltCard>)
    ensures |cards| == 2 * |items|
    ensures forall i :: 0 <= i < |cards| ==> cards[i].title == items[i % |items|].title
    ensures forall i :: 0 <= i < |cards| ==> cards[i] == RenderCard(items[i % |items|], i)
  {
    var loop := Loop(items);
    seq(|loop|, i requires 0 <= i < |loop| => RenderCard(loop[i], i))
  }

  /** No two cards on the belt share a key. */
  lemma BeltKeysDistinct(items: seq<Achievement>, i: int, j: int)
    requires 0 <= i < 2 * |items| && 0 <= j < 2 * |items| && i != j
    ensures RenderBelt(items)[i].key != RenderBelt(items)[j].key
  {
    var loop := Loop(items);
    var cards := RenderBelt(items);
    assert cards[i] == RenderCard(loop[i], i);
    assert cards[j] == RenderCard(loop[j], j);
    KeysDistinct(loop[i].id, loop[j].id, i, j);
  }

  /** The second copy of the belt shows the same cards as the first; only
      the keys differ. */
  lemma BeltHalvesMatch(items: seq<Achievement>, i: nat)
    requires i < |items|
    ensures RenderBelt(items)[i + |items|] == RenderBelt(items)[i].(key := Key(items[i].id, i + |items|))
  {
    var n := |items|;
    assert (i + n) % n == i by {
      Modular.ModUnique(i + n, n, 1, i);
    }
    assert i % n == i by {
      Modular.ModUnique(i, n, 0, i);
    }
  }
}

=== FILE: career_train.dfy ===
/**
 * The career timeline: a progress track whose target follows the
 * milestone currently in view, lit dots up to that milestone, one active
 * card, and evenly spaced markers.
 */
module CareerTrain {
  import opened RealArith

  /** `clampProgress`: pins a value into [0, 1]. */
  function ClampProgress(v: real): (r: real)
    ensures 0.0 <= r <= 1.0
    ensures 0.0 <= v <= 1.0 ==> r == v
    ensures v < 0.0 ==> r == 0.0
    ensures v > 1.0 ==> r == 1.0
  {
    var lower := if v >= 0.0 then v else 0.0;
    if lower <= 1.0 then lower else 1.0
  }

  /** Clamping twice is clamping once. */
  lemma ClampProgressIdempotent(v: real)
    ensures ClampProgress(ClampProgress(v)) == ClampProgress(v)
  {
  }

  /** Clamping never reverses the order of two values. */
  lemma ClampProgressMonotone(a: real, b: real)
    requires a <= b
    ensures ClampProgress(a) <= ClampProgress(b)
  {
  }

  /** `totalSegments`: the gaps between milestones, but never fewer than one,
      so it can always be divided by. */
  function TotalSegments(count: nat): (s: int)
    ensures s >= 1
    ensures count >= 2 ==> s == count - 1
    ensures count <= 2 ==> s == 1
  {
    if count - 1 >= 1 then count - 1 else 1
  }

  /** The timeline's state: how many milestones there are and which is in view. */
  datatype Timeline = Timeline(count: nat, active: int)

  /** On mount the first milestone is active. */
  function Init(count: nat): (t: Timeline)
    ensures t.count == count && t.active == 0
  {
    Timeline(count, 0)
  }

  /** How far along the track milestone `index` sits: its share of all segments. */
  function Share(count: nat, index: int): (q: real)
    ensures 0 <= index < count ==> 0.0 <= q <= 1.0
    ensures index <= 0 ==> q <= 0.0
    ensures count >= 2 && index >= count - 1 ==> q >= 1.0
    ensures q * TotalSegments(count) as real == index as real
  {
    ShareBounds(index, TotalSegments(count) as real, count);
    index as real / TotalSegments(count) as real
  }

  lemma ShareBounds(index: int, s: real, count: nat)
    requires s > 0.0 && (count >= 2 ==> s == (count - 1) as real) && (count < 2 ==> s == 1.0)
    ensures 0 <= index < count ==> 0.0 <= index as real / s <= 1.0
    ensures index <= 0 ==> index as real / s <= 0.0
    ensures count >= 2 && index >= count - 1 ==> index as real / s >= 1.0
    ensures index as real / s * s == index as real
  {
    var a := index as real;
    if 0 <= index < count {
      assert a <= s;
      DivUnit(a, s);
    }
    if index <= 0 {
      DivNonPositive(a, s);
    }
    if count >= 2 && index >= count - 1 {
      DivAtLeastOne(a, s);
    }
  }

  /** The progress the track springs toward: the active milestone's share of
      all segments, clamped. */
  function ProgressTarget(t: Timeline): (p: real)
    ensures 0.0 <= p <= 1.0
    ensures t.active <= 0 ==> p == 0.0
    ensures t.count >= 2 && t.active >= t.count - 1 ==> p == 1.0
  {
    ClampProgress(Share(t.count, t.active))
  }

  /** The target never moves back when a later milestone comes into view. */
  lemma ProgressTargetMonotone(count: nat, i: int, j: int)
    requires i <= j
    ensures ProgressTarget(Timeline(count, i)) <= ProgressTarget(Timeline(count, j))
  {
    var s := TotalSegments(count) as real;
    DivMonotone(i as real, j as real, s);
    ClampProgressMonotone(Share(count, i), Share(count, j));
  }

  /** `handleInView`: a milestone scrolled into view becomes the active one;
      reporting the one already active leaves the state as it is. */
  function HandleInView(t: Timeline, index: int): (t': Timeline)
    ensures t'.active == index && t'.count == t.count
    ensures index == t.active ==> t' == t
  {
    if t.active == index then t else t.(active := index)
  }

  /** Milestones reporting in view one after another. */
  function ReportAll(t: Timeline, reports: seq<int>): Timeline
    decreases |reports|
  {
    if |reports| == 0 then t else ReportAll(HandleInView(t, reports[0]), reports[1..])
  }

  /** After a run of reports, the milestone reported last is active. */
  lemma {:induction false} ReportAllLastWins(t: Timeline, reports: seq<int>)
    requires |reports| > 0
    ensures ReportAll(t, reports).active == reports[|reports| - 1]
    ensures ReportAll(t, reports).count == t.count
    decreases |reports|
  {
    if |reports| == 1 {
      assert ReportAll(HandleInView(t, reports[0]), reports[1..]) == HandleInView(t, reports[0]);
    } else {
      ReportAllLastWins(HandleInView(t, reports[0]), reports[1..]);
      assert reports[1..][|reports[1..]| - 1] == reports[|reports| - 1];
    }
  }

  /** Whether milestone `index`'s dot is lit: it has been reached. */
  predicate DotLit(t: Timeline, index: int)
  {
    index <= t.active
  }

  /** Whether milestone `index`'s card is highlighted. */
  predicate CardActive(t: Timeline, index: int)
  {
    index == t.active
  }

  /** The lit flags of all dots, in order. */
  function LitDots(t: Timeline): (lit: seq<bool>)
    ensures |lit| == t.count
    ensures forall i :: 0 <= i < |lit| ==> (lit[i] <==> DotLit(t, i))
    ensures forall i, j :: 0 <= i <= j < |lit| && lit[j] ==> lit[i]
  {
    seq(t.count, i => DotLit(t, i))
  }

  function CountTrue(flags: seq<bool>): nat
  {
    if |flags| == 0 then 0
    else CountTrue(flags[..|flags| - 1]) + (if flags[|flags| - 1] then 1 else 0)
  }

  /** The number of lit dots is the active position plus one, capped by
      the number of milestones. */
  lemma {:induction false} LitDotsCount(t: Timeline)
    requires t.active >= 0
    ensures CountTrue(LitDots(t)) == if t.active < t.count then t.active + 1 else t.count
    decreases t.count
  {
    if t.count > 0 {
      var smaller := Timeline(t.count - 1, t.active);
      assert LitDots(t)[..t.count - 1] == LitDots(smaller);
      LitDotsCount(smaller);
    }
  }

  /** The active flags of all cards, in order. */
  function ActiveCards(t: Timeline): (flags: seq<bool>)
    ensures |flags| == t.count
    ensures forall i :: 0 <= i < |flags| ==> (flags[i] <==> CardActive(t, i))
  {
    seq(t.count, i => CardActive(t, i))
  }

  /** Exactly one card is highlighted when the active milestone exists,
      and none otherwise. */
  lemma {:induction false} ActiveCardsCount(t: Timeline)
    ensures CountTrue(ActiveCards(t)) == if 0 <= t.active < t.count then 1 else 0
    decreases t.count
  {
    if t.count > 0 {
      var smaller := Timeline(t.count - 1, t.active);
      assert ActiveCards(t)[..t.count - 1] == ActiveCards(smaller);
      ActiveCardsCount(smaller);
    }
  }

  /** The horizontal position of milestone `index`'s marker, in percent. */
  function MarkerOffset(count: nat, index: nat): (pct: real)
    ensures index < count ==> 0.0 <= pct <= 100.0
    ensures index == 0 ==> pct == 0.0
    ensures count >= 2 && index == count - 1 ==> pct == 100.0
  {
    Share(count, index) * 100.0
  }

  /** At rest, the train (drawn at the clamped progress, in percent) sits
      exactly on the active milestone's marker. */
  lemma TrainRestsOnActiveMarker(count: nat, active: nat)
    requires active < count
    ensures ProgressTarget(Timeline(count, active)) * 100.0 == MarkerOffset(count, active)
  {
    var q := Share(count, active);
    assert ClampProgress(q) == q;
  }

  /** The floating animations the desktop cards cycle through. */
  datatype FloatVariant = FloatVariant(durationSeconds: nat)

  const FloatVariants: seq<FloatVariant> := [FloatVariant(10), FloatVariant(12), FloatVariant(9)]

  /** Card `index` floats with variant `index % 3`. */
  function VariantIndex(index: nat): (v: nat)
    ensures v < |FloatVariants|
    ensures index < |FloatVariants| ==> v == index
  {
    index % |FloatVariants|
  }

  /** Cards three apart float the same way. */
  lemma VariantIndexPeriodic(index: nat)
    ensures VariantIndex(index + |FloatVariants|) == VariantIndex(index)
  {
  }
}

=== FILE: carousel.dfy ===
/**
 * Index arithmetic of the tech-stack carousel: wrapping an index into the
 * ring of cards, stepping to the next or previous card, and the signed
 * circular distance that lays every card out around the active one.
 */
module Carousel {
  import opened Modular

  /** The carousel's `wrapIndex`: 0 when there are no cards, otherwise
      `((value % total) + total) % total` with JavaScript's `%`. */
  function WrapIndex(total: nat, value: int): (r: int)
    ensures total == 0 ==> r == 0
    ensures total > 0 ==> 0 <= r < total && Congruent(value, r, total)
  {
    if total == 0 then 0
    else
      var inner := JsRem(value, total);
      var r := JsRem(inner + total, total);
      CongruentByWitness(inner + total, inner, total, 1);
      CongruentSymm(inner + total, inner, total);
      CongruentTrans(value, inner, inner + total, total);
      CongruentTrans(value, inner + total, r, total);
      r
  }

  /** The wrapped index is exactly the Euclidean residue, negative inputs included. */
  lemma WrapIndexIsEuclidean(total: nat, value: int)
    requires total > 0
    ensures WrapIndex(total, value) == value % total
  {
    var r := WrapIndex(total, value);
    var e := value % total;
    CongruentByWitness(value, e, total, value / total);
    CongruentSymm(value, r, total);
    CongruentTrans(r, value, e, total);
    ResidueUnique(r, e, total);
  }

  /** Wrapping an index that is already in range leaves it alone. */
  lemma WrapIndexInRange(total: nat, value: int)
    requires 0 <= value < total
    ensures WrapIndex(total, value) == value
  {
    ResidueUnique(value, WrapIndex(total, value), total);
  }

  /** Wrapping only depends on the value modulo the card count. */
  lemma WrapIndexCongruent(total: nat, a: int, b: int)
    requires total > 0 && Congruent(a, b, total)
    ensures WrapIndex(total, a) == WrapIndex(total, b)
  {
    var ra := WrapIndex(total, a);
    var rb := WrapIndex(total, b);
    CongruentSymm(a, ra, total);
    CongruentTrans(ra, a, b, total);
    CongruentTrans(ra, b, rb, total);
    ResidueUnique(ra, rb, total);
  }

  /** The index the carousel starts on: the middle card, `Math.floor(total / 2)`. */
  function InitialIndex(total: nat): (r: int)
    ensures total == 0 ==> r == 0
    ensures total > 0 ==> 0 <= r < total
    ensures 2 * r <= total < 2 * r + 2
  {
    total / 2
  }

  /** The two directions `handleAdvance` accepts: `1` and `-1`. */
  datatype Direction = Forward | Backward {

    function Step(): (s: int)
      ensures s == 1 || s == -1
      ensures Forward? <==> s > 0
    {
      if Forward? then 1 else -1
    }

    function Reverse(): (d: Direction)
      ensures d != this
      ensures d.Step() == -Step()
    {
      if Forward? then Backward else Forward
    }
  }

  /** `handleAdvance`: the next active index after one step in `dir`. */
  function Advance(total: nat, active: int, dir: Direction): (r: int)
    ensures total == 0 ==> r == 0
    ensures total > 0 && 0 <= active < total && dir.Forward? ==>
      r == (if active == total - 1 then 0 else active + 1)
    ensures total > 0 && 0 <= active < total && dir.Backward? ==>
      r == (if active == 0 then total - 1 else active - 1)
  {
    WrapOneStep(total, active, dir);
    WrapIndex(total, active + dir.Step())
  }

  /** One step from an in-range index wraps only at the two ends. */
  lemma WrapOneStep(total: nat, active: int, dir: Direction)
    ensures total > 0 && 0 <= active < total ==>
      WrapIndex(total, active + dir.Step()) ==
        if dir.Forward? then (if active == total - 1 then 0 else active + 1)
        else (if active == 0 then total - 1 else active - 1)
  {
    if total > 0 && 0 <= active < total {
      var v := active + dir.Step();
      if dir.Forward? && active == total - 1 {
        CongruentByWitness(v, 0, total, 1);
        WrapIndexCongruent(total, v, 0);
        WrapIndexInRange(total, 0);
      } else if dir.Backward? && active == 0 {
        CongruentByWitness(v, total - 1, total, -1);
        WrapIndexCongruent(total, v, total - 1);
        WrapIndexInRange(total, total - 1);
      } else {
        WrapIndexInRange(total, v);
      }
    }
  }

  /** Stepping one way and then back returns to the card you started on. */
  lemma AdvanceThenReverse(total: nat, i: int, dir: Direction)
    requires 0 <= i < total
    ensures Advance(total, Advance(total, i, dir), dir.Reverse()) == i
  {
  }

  /** `k` consecutive steps in one direction. */
  function AdvanceTimes(total: nat, i: int, dir: Direction, k: nat): int
  {
    if k == 0 then i else Advance(total, AdvanceTimes(total, i, dir, k - 1), dir)
  }

  /** One step from a wrapped index is the wrap of the value one step on. */
  lemma AdvanceWrapped(total: nat, target: int, dir: Direction)
    requires total > 0
    ensures Advance(total, WrapIndex(total, target), dir) == WrapIndex(total, target + dir.Step())
  {
    var prev := WrapIndex(total, target);
    CongruentAdd(target, prev, dir.Step(), total);
    WrapIndexCongruent(total, target + dir.Step(), prev + dir.Step());
  }

  /** `k` steps land on the wrapped index `i + k * step`, that is `i + k`
      forward and `i - k` backward. */
  lemma {:induction false} AdvanceTimesIsWrap(total: nat, i: int, dir: Direction, k: nat)
    requires 0 <= i < total
    ensures AdvanceTimes(total, i, dir, k) == WrapIndex(total, if dir.Forward? then i + k else i - k)
  {
    if k == 0 {
      WrapIndexInRange(total, i);
    } else {
      AdvanceTimesIsWrap(total, i, dir, k - 1);
      AdvanceTimesStep(total, i, dir, k, if dir.Forward? then i + (k - 1) else i - (k - 1));
    }
  }

  /** The induction step: one more step from a wrapped value. */
  lemma AdvanceTimesStep(total: nat, i: int, dir: Direction, k: nat, before: int)
    requires 0 <= i < total && k > 0
    requires AdvanceTimes(total, i, dir, k - 1) == WrapIndex(total, before)
    ensures AdvanceTimes(total, i, dir, k) == WrapIndex(total, before + dir.Step())
  {
    AdvanceWrapped(total, before, dir);
  }

  /** Going all the way round the ring, one card at a time, returns to the start. */
  lemma FullTurnReturns(total: nat, i: int, dir: Direction)
    requires 0 <= i < total
    ensures AdvanceTimes(total, i, dir, total) == i
  {
    AdvanceTimesIsWrap(total, i, dir, total);
    var v := if dir.Forward? then i + total else i - total;
    CongruentByWitness(v, i, total, dir.Step());
    WrapIndexCongruent(total, v, i);
    WrapIndexInRange(total, i);
  }

  function Abs(x: int): (r: nat)
    ensures r == x || r == -x
  {
    if x < 0 then -x else x
  }

  /** The signed circular distance of card `index` from the active card:
      `index - active`, folded once into the ring around 0 by comparing
      against `total / 2` (a real division in the source). */
  function Distance(total: nat, index: int, active: int): (d: int)
    ensures 0 <= index < total && 0 <= active < total ==>
      && -(total as real) / 2.0 <= d as real <= (total as real) / 2.0
      && Congruent(d, index - active, total)
      && (d == 0 <==> index == active)
    ensures -(total as real) / 2.0 <= (index - active) as real <= (total as real) / 2.0 ==>
      d == index - active
  {
    var d0 := index - active;
    var d1 := if d0 as real > total as real / 2.0 then d0 - total else d0;
    var d2 := if (d1 as real) < -(total as real) / 2.0 then d1 + total else d1;
    DistanceFold(total, index, active, d0, d1, d2);
    d2
  }

  lemma DistanceFold(total: nat, index: int, active: int, d0: int, d1: int, d2: int)
    requires d0 == index - active
    requires d1 == if d0 as real > total as real / 2.0 then d0 - total else d0
    requires d2 == if (d1 as real) < -(total as real) / 2.0 then d1 + total else d1
    ensures 0 <= index < total && 0 <= active < total ==>
      && -(total as real) / 2.0 <= d2 as real <= (total as real) / 2.0
      && Congruent(d2, d0, total)
      && (d2 == 0 <==> index == active)
  {
    if 0 <= index < total && 0 <= active < total {
      CongruentByWitness(d2, d0, total, if d1 != d0 then -1 else if d2 != d1 then 1 else 0);
    }
  }

  /** Two cards never share a distance from the same active card, so the
      layout puts every card in its own slot. */
  lemma DistanceInjective(total: nat, i: int, j: int, active: int)
    requires 0 <= i < total && 0 <= j < total && 0 <= active < total
    requires Distance(total, i, active) == Distance(total, j, active)
    ensures i == j
  {
    var d := Distance(total, i, active);
    CongruentSymm(d, i - active, total);
    CongruentTrans(i - active, d, j - active, total);
    CongruentAdd(i - active, j - active, active, total);
    ResidueUnique(i, j, total);
  }

  /** What a card's position, look and stacking derive from its distance. */
  datatype CardLayout = CardLayout(
    distance: int,
    translateX: real,
    scale: real,
    opacity: real,
    blur: real,
    rotateY: real,
    zIndex: int,
    isActive: bool)

  function MinR(a: real, b: real): real { if a <= b then a else b }
  function MaxR(a: real, b: real): real { if a >= b then a else b }

  /** The per-card layout: slide, shrink, fade and blur with distance;
      only the active card takes pointer events and it stacks on top. */
  function Layout(total: nat, index: int, active: int): (c: CardLayout)
    requires 0 <= index < total && 0 <= active < total
    ensures c.distance == Distance(total, index, active)
    ensures c.isActive <==> index == active
    ensures c.opacity == 1.0 <==> c.isActive
    ensures c.opacity == 1.0 || c.opacity == 0.6 || c.opacity == 0.22
    ensures c.opacity == 0.6 <==> Abs(c.distance) == 1
    ensures c.blur == 0.0 <==> Abs(c.distance) <= 1
    ensures c.blur >= 0.0
    ensures 0.58 <= c.scale <= 1.0
    ensures 1 <= c.zIndex <= total
    ensures c.zIndex == total <==> c.isActive
  {
    var d := Distance(total, index, active);
    var ad := Abs(d);
    CardLayout(
      d,
      (d * 220) as real,
      1.0 - MinR(ad as real * 0.14, 0.42),
      if ad == 0 then 1.0 else if ad == 1 then 0.6 else 0.22,
      MaxR((ad - 1) as real, 0.0) * 2.5,
      (d * -5) as real,
      total - ad,
      ad == 0)
  }

  /** A card nearer the active one stacks higher, is at least as large, at
      least as opaque and at most as blurred. */
  lemma NearerCardsStackHigher(total: nat, i: int, j: int, active: int)
    requires 0 <= i < total && 0 <= j < total && 0 <= active < total
    requires Abs(Distance(total, i, active)) < Abs(Distance(total, j, active))
    ensures Layout(total, i, active).zIndex > Layout(total, j, active).zIndex
    ensures Layout(total, i, active).scale >= Layout(total, j, active).scale
    ensures Layout(total, i, active).opacity >= Layout(total, j, active).opacity
    ensures Layout(total, i, active).blur <= Layout(total, j, active).blur
  {
  }

  /** Exactly one card is active, and it stacks strictly above every other. */
  lemma ExactlyOneActive(total: nat, active: int)
    requires 0 <= active < total
    ensures (set i | 0 <= i < total && Layout(total, i, active).isActive) == {active}
    ensures forall i :: 0 <= i < total && i != active ==>
      Layout(total, i, active).zIndex < Layout(total, active, active).zIndex
  {
  }
}

=== FILE: carousel_input.dfy ===
/**
 * The tech-stack carousel's input handling: Shift+wheel, arrow keys, the
 * Prev/Next buttons and a touch-swipe recognizer. The swipe recognizer is
 * a two-field state machine: the point the gesture is measured from (if
 * any) and whether the gesture has locked onto the horizontal axis.
 */
module CarouselInput {
  import opened Optional
  import opened Carousel

  /** A touch position in viewport pixels. */
  datatype Point = Point(x: real, y: real)

  /** The swipe recognizer's two references: the origin of the current
      measurement and whether the gesture is locked as a horizontal swipe. */
  datatype TouchState = TouchState(origin: Option<Point>, locked: bool)

  /** No gesture in progress. */
  const Released := TouchState(None, false)

  /** Movement within this many pixels on both axes does not decide a gesture. */
  const DeadZone: real := 12.0
  /** Horizontal travel that turns the carousel by one card. */
  const SwipeStep: real := 36.0
  /** Smallest wheel delta that counts as a turn. */
  const WheelThreshold: real := 6.0

  /** The carousel's state: card count, active card and the touch references. */
  datatype State = State(total: nat, active: int, touch: TouchState)

  /** The active index is always a wrapped index, and a locked gesture
      always has an origin to measure from. */
  predicate Valid(c: State)
  {
    && (if c.total == 0 then c.active == 0 else 0 <= c.active < c.total)
    && (c.touch.locked ==> c.touch.origin.Some?)
  }

  /** The state on mount: the middle card is active, no gesture. */
  function Init(total: nat): (c: State)
    ensures Valid(c)
    ensures c.total == total && c.touch == Released
    ensures 2 * c.active <= total < 2 * c.active + 2
  {
    State(total, InitialIndex(total), Released)
  }

  /** The input events the carousel listens to. A touch event carries its
      first touch point, which may be missing. */
  datatype Event =
    | Wheel(shift: bool, deltaX: real, deltaY: real)
    | KeyDown(key: string)
    | TouchStart(start: Option<Point>)
    | TouchMove(point: Option<Point>)
    | TouchEnd
    | TouchCancel
    | PrevClick
    | NextClick

  /** The state after an event and whether the handler called `preventDefault`. */
  datatype Reaction = Reaction(next: State, preventDefault: bool)

  function AbsR(x: real): (r: real)
    ensures r >= 0.0 && (r == x || r == -x)
  {
    if x < 0.0 then -x else x
  }

  /** Moves the active card one step; nothing else changes. */
  function Turn(c: State, dir: Direction): (c': State)
    ensures c'.total == c.total && c'.touch == c.touch
    ensures Valid(c) ==> Valid(c')
    ensures c.total > 1 && Valid(c) ==> c'.active != c.active
    ensures c'.active == Advance(c.total, c.active, dir)
  {
    c.(active := Advance(c.total, c.active, dir))
  }

  /** The previous button undoes the next button, and vice versa. */
  lemma TurnThenReverse(c: State, dir: Direction)
    requires Valid(c)
    ensures Turn(Turn(c, dir), dir.Reverse()) == c
  {
    if c.total > 0 {
      AdvanceThenReverse(c.total, c.active, dir);
    }
  }

  /** The wheel delta that decides the direction: the vertical one only
      when strictly larger in magnitude, otherwise the horizontal one. */
  function DominantDelta(deltaX: real, deltaY: real): (d: real)
    ensures d == deltaX || d == deltaY
    ensures AbsR(d) >= AbsR(deltaX) && AbsR(d) >= AbsR(deltaY)
    ensures AbsR(deltaX) == AbsR(deltaY) ==> d == deltaX
  {
    if AbsR(deltaY) > AbsR(deltaX) then deltaY else deltaX
  }

  /** `handleWheel`: only for a Shift+wheel does the handler call
      `preventDefault`; a dominant delta below the threshold turns nothing. */
  function OnWheel(c: State, shift: bool, deltaX: real, deltaY: real): (r: Reaction)
    ensures r.preventDefault <==> shift
    ensures r.next.total == c.total && r.next.touch == c.touch
    ensures !shift || AbsR(DominantDelta(deltaX, deltaY)) < WheelThreshold ==> r.next == c
    ensures shift && AbsR(DominantDelta(deltaX, deltaY)) >= WheelThreshold ==>
      r.next.active == Advance(c.total, c.active,
        if DominantDelta(deltaX, deltaY) > 0.0 then Forward else Backward)
  {
    if !shift then Reaction(c, false)
    else
      var delta := DominantDelta(deltaX, deltaY);
      if AbsR(delta) < WheelThreshold then Reaction(c, true)
      else Reaction(Turn(c, if delta > 0.0 then Forward else Backward), true)
  }

  /** `handleKeyDown`: the right arrow turns forward, the left arrow
      backward; for any other key the handler does not call `preventDefault`. */
  function OnKeyDown(c: State, key: string): (r: Reaction)
    ensures r.preventDefault <==> key == "ArrowRight" || key == "ArrowLeft"
    ensures key == "ArrowRight" ==> r.next == c.(active := Advance(c.total, c.active, Forward))
    ensures key == "ArrowLeft" ==> r.next == c.(active := Advance(c.total, c.active, Backward))
    ensures !r.preventDefault ==> r.next == c
  {
    if key == "ArrowRight" then Reaction(Turn(c, Forward), true)
    else if key == "ArrowLeft" then Reaction(Turn(c, Backward), true)
    else Reaction(c, false)
  }

  /** `handleTouchStart`: anchors a fresh, unlocked gesture at the first
      touch; an event without a touch point changes nothing. */
  function OnTouchStart(c: State, start: Option<Point>): (c': State)
    ensures start.None? ==> c' == c
    ensures start.Some? ==> c'.touch == TouchState(start, false)
    ensures c'.total == c.total && c'.active == c.active
    ensures Valid(c) ==> Valid(c')
  {
    match start
    case None => c
    case Some(p) => c.(touch := TouchState(Some(p), false))
  }

  /** `handleTouchEnd`, also used for touch-cancel: forgets the gesture. */
  function OnTouchEnd(c: State): (c': State)
    ensures c'.touch.origin.None? && !c'.touch.locked
    ensures c'.total == c.total && c'.active == c.active
    ensures Valid(c) ==> Valid(c')
  {
    c.(touch := Released)
  }

  /** The part of `handleTouchMove` that runs once the gesture is locked:
      a horizontal travel of at least one step turns one card against the
      finger (left swipe shows the next card) and re-anchors the origin. */
  function LockedMove(c: State, p: Point, dx: real): (c': State)
    requires c.touch.locked
  {
    if AbsR(dx) >= SwipeStep then
      Turn(c, if dx < 0.0 then Forward else Backward).(touch := TouchState(Some(p), true))
    else c
  }

  /** `handleTouchMove`. */
  function OnTouchMove(c: State, point: Option<Point>): (r: Reaction)
    ensures Valid(c) ==> Valid(r.next)
    ensures r.next.total == c.total
    // Nothing to measure from, or no touch point: ignored.
    ensures c.touch.origin.None? || point.None? ==> r == Reaction(c, false)
    // Before locking, a move inside the dead zone on both axes is ignored.
    ensures c.touch.origin.Some? && point.Some? && !c.touch.locked
      && AbsR(point.value.x - c.touch.origin.value.x) <= DeadZone
      && AbsR(point.value.y - c.touch.origin.value.y) <= DeadZone
      ==> r == Reaction(c, false)
    // Before locking, a vertically dominant move abandons the gesture.
    ensures c.touch.origin.Some? && point.Some? && !c.touch.locked
      && (AbsR(point.value.x - c.touch.origin.value.x) > DeadZone
          || AbsR(point.value.y - c.touch.origin.value.y) > DeadZone)
      && AbsR(point.value.y - c.touch.origin.value.y) > AbsR(point.value.x - c.touch.origin.value.x)
      ==> r == Reaction(c.(touch := Released), false)
    // A move turns at most one card, and only after locking, re-anchoring at the touch.
    ensures r.next.active == c.active
      || (r.next.active == Advance(c.total, c.active, Forward)
          && c.touch.origin.Some? && point.Some? && point.value.x - c.touch.origin.value.x <= -SwipeStep)
      || (r.next.active == Advance(c.total, c.active, Backward)
          && c.touch.origin.Some? && point.Some? && point.value.x - c.touch.origin.value.x >= SwipeStep)
    ensures r.next.active != c.active ==> r.next.touch == TouchState(point, true)
    // The handler calls preventDefault only on a measured move, and always
    // once the gesture is locked; the lock then holds.
    ensures r.preventDefault ==> c.touch.origin.Some? && point.Some?
    ensures !c.touch.locked ==> (r.preventDefault <==> r.next.touch.locked)
    ensures c.touch.locked && c.touch.origin.Some? && point.Some? ==>
      r.preventDefault && r.next.touch.locked
    // Past the dead zone and not vertical, or already locked: the gesture is
    // locked; a horizontal travel of one step turns one card against the
    // finger and re-anchors at the touch, a shorter one keeps the origin.
    ensures c.touch.origin.Some? && point.Some?
      && (c.touch.locked
          || ((AbsR(point.value.x - c.touch.origin.value.x) > DeadZone
               || AbsR(point.value.y - c.touch.origin.value.y) > DeadZone)
              && AbsR(point.value.y - c.touch.origin.value.y) <= AbsR(point.value.x - c.touch.origin.value.x)))
      ==> r.next == (if AbsR(point.value.x - c.touch.origin.value.x) >= SwipeStep
                     then Turn(c, if point.value.x - c.touch.origin.value.x < 0.0 then Forward else Backward)
                            .(touch := TouchState(point, true))
                     else c.(touch := TouchState(c.touch.origin, true)))
  {
    match (c.touch.origin, point)
    case (None, _) => Reaction(c, false)
    case (_, None) => Reaction(c, false)
    case (Some(o), Some(p)) =>
      var dx := p.x - o.x;
      var dy := p.y - o.y;
      if !c.touch.locked && AbsR(dx) <= DeadZone && AbsR(dy) <= DeadZone then
        Reaction(c, false)
      else if !c.touch.locked && AbsR(dy) > AbsR(dx) then
        Reaction(c.(touch := Released), false)
      else
        Reaction(LockedMove(c.(touch := TouchState(Some(o), true)), p, dx), true)
  }

  /** One event through the matching handler. */
  function Step(c: State, e: Event): (r: Reaction)
    ensures Valid(c) ==> Valid(r.next)
    ensures r.next.total == c.total
    ensures e.Wheel? ==> r == OnWheel(c, e.shift, e.deltaX, e.deltaY)
    ensures e.KeyDown? ==> r == OnKeyDown(c, e.key)
    ensures e.TouchStart? ==> r == Reaction(OnTouchStart(c, e.start), false)
    ensures e.TouchMove? ==> r == OnTouchMove(c, e.point)
    ensures e.TouchEnd? || e.TouchCancel? ==> r == Reaction(OnTouchEnd(c), false)
    ensures e.PrevClick? ==> r == Reaction(c.(active := Advance(c.total, c.active, Backward)), false)
    ensures e.NextClick? ==> r == Reaction(c.(active := Advance(c.total, c.active, Forward)), false)
  {
    match e
    case Wheel(shift, deltaX, deltaY) => OnWheel(c, shift, deltaX, deltaY)
    case KeyDown(key) => OnKeyDown(c, key)
    case TouchStart(start) => Reaction(OnTouchStart(c, start), false)
    case TouchMove(point) => OnTouchMove(c, point)
    case TouchEnd => Reaction(OnTouchEnd(c), false)
    case TouchCancel => Reaction(OnTouchEnd(c), false)
    case PrevClick => Reaction(Turn(c, Backward), false)
    case NextClick => Reaction(Turn(c, Forward), false)
  }

  /** The state after a sequence of events. */
  function Run(c: State, events: seq<Event>): State
    decreases |events|
  {
    if |events| == 0 then c else Run(Step(c, events[0]).next, events[1..])
  }

  /** Every reachable state is valid: the active card stays in range. */
  lemma {:induction false} RunPreservesValid(c: State, events: seq<Event>)
    requires Valid(c)
    ensures Valid(Run(c, events))
    ensures Run(c, events).total == c.total
    decreases |events|
  {
    if |events| > 0 {
      RunPreservesValid(Step(c, events[0]).next, events[1..]);
    }
  }

  predicate AllMoves(events: seq<Event>)
  {
    forall k :: 0 <= k < |events| ==> events[k].TouchMove?
  }

  /** Once a gesture has been abandoned (or ended), further moves are ignored
      until the next touch-start. */
  lemma {:induction false} AbandonedGestureIgnoresMoves(c: State, events: seq<Event>)
    requires c.touch.origin.None?
    requires AllMoves(events)
    ensures Run(c, events) == c
    decreases |events|
  {
    if |events| > 0 {
      assert events[0].TouchMove?;
      assert AllMoves(events[1..]) by {
        forall k | 0 <= k < |events[1..]|
          ensures events[1..][k].TouchMove?
        {
          assert events[1..][k] == events[k + 1];
        }
      }
      AbandonedGestureIgnoresMoves(c, events[1..]);
    }
  }

  /** A left swipe of at least one step on a locked gesture shows the next
      card, and a right swipe the previous one. */
  lemma LockedSwipeTurnsOnce(c: State, p: Point)
    requires Valid(c) && c.touch.locked
    requires AbsR(p.x - c.touch.origin.value.x) >= SwipeStep
    ensures var r := OnTouchMove(c, Some(p));
      && r.preventDefault
      && r.next.touch == TouchState(Some(p), true)
      && r.next.active == Advance(c.total, c.active,
           if p.x < c.touch.origin.value.x then Forward else Backward)
  {
  }
}

=== FILE: github_projects.dfy ===
/**
 * The project list built from a user's public repositories: forks are
 * dropped and every remaining repository record is reshaped into the
 * fields the portfolio shows.
 */
module GitHubProjects {
  import opened Optional

  /** A repository record as the hosting API returns it (the fields read here). */
  datatype RawRepo = RawRepo(
    name: string,
    description: Option<string>,
    fork: bool,
    stargazersCount: int,
    forksCount: int,
    htmlUrl: string,
    pushedAt: Option<string>)

  /** A project as the portfolio lists it. */
  datatype Project = Project(
    name: string,
    description: Option<string>,
    stars: int,
    forks: int,
    url: string,
    lastUpdated: Option<string>)

  /** The filter step: the repositories that are not forks, in their original order. */
  function NonForks(repos: seq<RawRepo>): (kept: seq<RawRepo>)
    ensures |kept| <= |repos|
    decreases |repos|
  {
    if |repos| == 0 then []
    else
      var rest := NonForks(repos[1..]);
      if repos[0].fork then rest else [repos[0]] + rest
  }

  /** The kept repositories are exactly the non-fork inputs, each as often as
      it occurs in the input. */
  lemma {:induction false} NonForksMembers(repos: seq<RawRepo>)
    ensures forall r :: r in NonForks(repos) <==> r in repos && !r.fork
    ensures forall r :: multiset(NonForks(repos))[r] == if r.fork then 0 else multiset(repos)[r]
    decreases |repos|
  {
    if |repos| > 0 {
      NonForksMembers(repos[1..]);
      assert repos == [repos[0]] + repos[1..];
      assert multiset(repos) == multiset([repos[0]]) + multiset(repos[1..]);
      if !repos[0].fork {
        assert NonForks(repos) == [repos[0]] + NonForks(repos[1..]);
        assert multiset(NonForks(repos)) == multiset([repos[0]]) + multiset(NonForks(repos[1..]));
      }
    }
  }

  /** One step of the filter: the first record is kept unless it is a fork. */
  lemma NonForksCons(repos: seq<RawRepo>)
    requires |repos| > 0
    ensures NonForks(repos) == (if repos[0].fork then [] else [repos[0]]) + NonForks(repos[1..])
  {
  }

  /** Filtering a concatenation filters each part and keeps them in order. */
  lemma {:induction false} NonForksAppend(a: seq<RawRepo>, b: seq<RawRepo>)
    ensures NonForks(a + b) == NonForks(a) + NonForks(b)
    decreases |a|
  {
    if |a| > 0 {
      var head := if a[0].fork then [] else [a[0]];
      assert (a + b)[0] == a[0];
      assert (a + b)[1..] == a[1..] + b;
      NonForksCons(a + b);
      NonForksCons(a);
      NonForksAppend(a[1..], b);
      assert head + (NonForks(a[1..]) + NonForks(b)) == (head + NonForks(a[1..])) + NonForks(b);
    } else {
      assert a + b == b;
    }
  }

  /** The number of forks among the records. */
  function ForkCount(repos: seq<RawRepo>): nat
    decreases |repos|
  {
    if |repos| == 0 then 0 else (if repos[0].fork then 1 else 0) + ForkCount(repos[1..])
  }

  /** The filter drops exactly the forks. */
  lemma {:induction false} NonForksLength(repos: seq<RawRepo>)
    ensures |NonForks(repos)| + ForkCount(repos) == |repos|
    decreases |repos|
  {
    if |repos| > 0 {
      NonForksCons(repos);
      NonForksLength(repos[1..]);
    }
  }

  predicate NoForks(repos: seq<RawRepo>)
  {
    forall k :: 0 <= k < |repos| ==> !repos[k].fork
  }

  /** Records that are all non-forks pass through the filter unchanged. */
  lemma {:induction false} NonForksOfNoForks(repos: seq<RawRepo>)
    requires NoForks(repos)
    ensures NonForks(repos) == repos
    decreases |repos|
  {
    if |repos| > 0 {
      assert NoForks(repos[1..]) by {
        forall k | 0 <= k < |repos[1..]|
          ensures !repos[1..][k].fork
        {
          assert repos[1..][k] == repos[k + 1];
        }
      }
      NonForksOfNoForks(repos[1..]);
    }
  }

  /** Filtering an already filtered list changes nothing. */
  lemma NonForksIdempotent(repos: seq<RawRepo>)
    ensures NonForks(NonForks(repos)) == NonForks(repos)
  {
    var kept := NonForks(repos);
    NonForksMembers(repos);
    assert NoForks(kept) by {
      forall k | 0 <= k < |kept|
        ensures !kept[k].fork
      {
        assert kept[k] in kept;
      }
    }
    NonForksOfNoForks(kept);
  }

  /** There is no fork exactly when the fork count is zero. */
  lemma {:induction false} ForkCountZeroIff(repos: seq<RawRepo>)
    ensures ForkCount(repos) == 0 <==> NoForks(repos)
    decreases |repos|
  {
    if |repos| > 0 {
      ForkCountZeroIff(repos[1..]);
      if NoForks(repos) {
        assert NoForks(repos[1..]) by {
          forall k | 0 <= k < |repos[1..]|
            ensures !repos[1..][k].fork
          {
            assert repos[1..][k] == repos[k + 1];
          }
        }
      } else {
        var k :| 0 <= k < |repos| && repos[k].fork;
        if k > 0 {
          assert repos[1..][k - 1].fork;
        }
      }
    }
  }

  /** Nothing is dropped exactly when there is no fork among the inputs. */
  lemma NonForksKeepsAllIff(repos: seq<RawRepo>)
    ensures |NonForks(repos)| == |repos| <==> NoForks(repos)
  {
    NonForksLength(repos);
    ForkCountZeroIff(repos);
  }

  /** An all-fork list yields no projects. */
  lemma NonForksOfAllForks(repos: seq<RawRepo>)
    requires forall k :: 0 <= k < |repos| ==> repos[k].fork
    ensures NonForks(repos) == []
  {
  }

  /** The reshape of one record: name and description copied, counts,
      URL and push time renamed. */
  function ToProject(r: RawRepo): (p: Project)
    ensures p.name == r.name && p.description == r.description
    ensures p.stars == r.stargazersCount && p.forks == r.forksCount
    ensures p.url == r.htmlUrl && p.lastUpdated == r.pushedAt
  {
    Project(r.name, r.description, r.stargazersCount, r.forksCount, r.htmlUrl, r.pushedAt)
  }

  /** The non-fork record a project was made from. */
  function FromProject(p: Project): (r: RawRepo)
    ensures !r.fork
  {
    RawRepo(p.name, p.description, false, p.stars, p.forks, p.url, p.lastUpdated)
  }

  /** The reshape loses nothing a non-fork record carries: it is undone by
      `FromProject`, and undoes it. */
  lemma ToProjectLossless(r: RawRepo, p: Project)
    ensures !r.fork ==> FromProject(ToProject(r)) == r
    ensures ToProject(FromProject(p)) == p
  {
  }

  /** The reshape applied record by record, order kept. */
  function Reshape(kept: seq<RawRepo>): (ps: seq<Project>)
    ensures |ps| == |kept|
    ensures forall i :: 0 <= i < |ps| ==> ps[i] == ToProject(kept[i])
  {
    seq(|kept|, i requires 0 <= i < |kept| => ToProject(kept[i]))
  }

  /** Every non-fork input shows up reshaped, and every output comes from an
      input. */
  lemma ReshapeMembers(repos: seq<RawRepo>, ps: seq<Project>)
    requires ps == Reshape(NonForks(repos))
    ensures forall r :: r in repos && !r.fork ==> ToProject(r) in ps
    ensures forall i :: 0 <= i < |ps| ==> FromProject(ps[i]) in repos
  {
    var kept := NonForks(repos);
    NonForksMembers(repos);
    forall r | r in repos && !r.fork
      ensures ToProject(r) in ps
    {
      var i :| 0 <= i < |kept| && kept[i] == r;
      assert ps[i] == ToProject(r);
    }
    forall i | 0 <= i < |ps|
      ensures FromProject(ps[i]) in repos
    {
      assert kept[i] in kept;
      ToProjectLossless(kept[i], ps[i]);
    }
  }

  /** `getProjects` after the fetch: filter out forks, then reshape. */
  function GetProjects(repos: seq<RawRepo>): (ps: seq<Project>)
    ensures |ps| == |NonForks(repos)| <= |repos|
    ensures forall i :: 0 <= i < |ps| ==> ps[i] == ToProject(NonForks(repos)[i])
    ensures forall r :: r in repos && !r.fork ==> ToProject(r) in ps
    ensures forall i :: 0 <= i < |ps| ==> FromProject(ps[i]) in repos
  {
    var ps := Reshape(NonForks(repos));
    ReshapeMembers(repos, ps);
    ps
  }

  /** Fetching two lists and concatenating the projects is the same as
      fetching their concatenation. */
  lemma GetProjectsAppend(a: seq<RawRepo>, b: seq<RawRepo>)
    ensures GetProjects(a + b) == GetProjects(a) + GetProjects(b)
  {
    NonForksAppend(a, b);
    var l := GetProjects(a + b);
    var r := GetProjects(a) + GetProjects(b);
    assert |l| == |r|;
    forall i | 0 <= i < |l|
      ensures l[i] == r[i]
    {
      if i < |GetProjects(a)| {
        assert NonForks(a + b)[i] == NonForks(a)[i];
      } else {
        assert NonForks(a + b)[i] == NonForks(b)[i - |GetProjects(a)|];
      }
    }
  }
}

=== FILE: global_background.dfy ===
/**
 * The animated page background: aurora bands and a handful of glow blobs
 * whose size, timing, colour and start position are fixed integer formulas
 * of the blob's index, the device class and the theme.
 */
module GlobalBackground {
  import opened Optional
  import opened Modular

  const DarkPalette: seq<string> := ["#06b6d4", "#8b5cf6", "#f43f5e", "#f59e0b", "#22c55e"]
  const LightPalette: seq<string> := ["#22d3ee", "#a78bfa", "#fb7185", "#f59e0b", "#4ade80"]

  /** The blob colours: the dark palette exactly when the resolved theme is "dark". */
  function Palette(resolvedTheme: Option<string>): (p: seq<string>)
    ensures |p| == 5
    ensures p == DarkPalette <==> resolvedTheme == Some("dark")
  {
    if resolvedTheme == Some("dark") then DarkPalette else LightPalette
  }

  /** How many blobs to draw: none under reduced motion, three on a small or
      coarse-pointer screen, six otherwise. */
  function BlobCount(reduced: bool, mobile: bool): (n: nat)
    ensures reduced <==> n == 0
    ensures !reduced && mobile ==> n == 3
    ensures !reduced && !mobile ==> n == 6
  {
    if reduced then 0 else if mobile then 3 else 6
  }

  /** One glow blob: diameter (px), loop duration (s), colour, start
      position (percent of the viewport) and drift amplitude. */
  datatype Blob = Blob(size: nat, dur: nat, color: string, startX: nat, startY: nat, delta: nat)

  /** Blob `i`. Sizes and durations cycle with period three, colours with
      the palette's five. */
  function MakeBlob(i: nat, mobile: bool, resolvedTheme: Option<string>): (b: Blob)
    ensures mobile ==> b.size == 160 || b.size == 200 || b.size == 240
    ensures !mobile ==> b.size == 220 || b.size == 280 || b.size == 340
    ensures b.dur == 12 || b.dur == 15 || b.dur == 18
    ensures i % 3 == 0 ==> b.size == (if mobile then 160 else 220) && b.dur == 12
    ensures i % 3 == 1 ==> b.size == (if mobile then 200 else 280) && b.dur == 15
    ensures i % 3 == 2 ==> b.size == (if mobile then 240 else 340) && b.dur == 18
    ensures b.startX < 100 && b.startY < 100
    ensures b.delta == (if mobile then 12 else 18)
    ensures b.color == Palette(resolvedTheme)[i % 5]
  {
    var cycle := i % 3;
    Blob(
      if mobile then 160 + cycle * 40 else 220 + cycle * 60,
      12 + cycle * 3,
      Palette(resolvedTheme)[i % |Palette(resolvedTheme)|],
      (i * 17) % 100,
      (i * 29) % 100,
      if mobile then 12 else 18)
  }

  /** Blobs three apart share size and duration; five apart share colour. */
  lemma MakeBlobPeriodic(i: nat, mobile: bool, resolvedTheme: Option<string>)
    ensures MakeBlob(i + 3, mobile, resolvedTheme).size == MakeBlob(i, mobile, resolvedTheme).size
    ensures MakeBlob(i + 3, mobile, resolvedTheme).dur == MakeBlob(i, mobile, resolvedTheme).dur
    ensures MakeBlob(i + 5, mobile, resolvedTheme).color == MakeBlob(i, mobile, resolvedTheme).color
  {
    ModUnique(i + 3, 3, i / 3 + 1, i % 3);
    ModUnique(i + 5, 5, i / 5 + 1, i % 5);
  }

  /** The generated blob list. */
  function Blobs(reduced: bool, mobile: bool, resolvedTheme: Option<string>): (bs: seq<Blob>)
    ensures |bs| == BlobCount(reduced, mobile)
    ensures forall i :: 0 <= i < |bs| ==> bs[i] == MakeBlob(i, mobile, resolvedTheme)
  {
    seq(BlobCount(reduced, mobile), i requires 0 <= i => MakeBlob(i, mobile, resolvedTheme))
  }

  /** If `a * i` and `a * j` agree modulo 100 and `a` has inverse `inv`
      modulo 100, then `i` and `j` agree modulo 100. */
  lemma CancelFactor(a: int, inv: int, i: int, j: int)
    requires Congruent(a * inv, 1, 100)
    requires Congruent(a * i, a * j, 100)
    ensures Congruent(i, j, 100)
  {
    var k := CongruentWitness(a * i, a * j, 100);
    var u := CongruentWitness(a * inv, 1, 100);
    assert a * (i - j) == 100 * k;
    assert a * inv * (i - j) == 100 * (k * inv);
    assert (1 + 100 * u) * (i - j) == 100 * (k * inv);
    CongruentByWitness(i, j, 100, k * inv - u * (i - j));
  }

  /** No two of the first hundred blobs start in the same column, nor in
      the same row, because 17 and 29 are invertible modulo 100. */
  lemma StartPositionsDistinct(i: nat, j: nat)
    requires i < 100 && j < 100 && i != j
    ensures (i * 17) % 100 != (j * 17) % 100
    ensures (i * 29) % 100 != (j * 29) % 100
  {
    if (i * 17) % 100 == (j * 17) % 100 {
      CongruentByWitness(17 * i, 17 * j, 100, (i * 17) / 100 - (j * 17) / 100);
      CongruentByWitness(17 * 53, 1, 100, 9);
      CancelFactor(17, 53, i, j);
      ResidueUnique(i, j, 100);
    }
    if (i * 29) % 100 == (j * 29) % 100 {
      CongruentByWitness(29 * i, 29 * j, 100, (i * 29) / 100 - (j * 29) / 100);
      CongruentByWitness(29 * 69, 1, 100, 20);
      CancelFactor(29, 69, i, j);
      ResidueUnique(i, j, 100);
    }
  }

  /** What the background animates. */
  datatype Scene = Scene(aurora: bool, blobs: seq<Blob>)

  /** The render guard: nothing animates before mount or under reduced
      motion; otherwise the aurora bands and every generated blob. */
  function Render(mounted: bool, reduced: bool, mobile: bool, resolvedTheme: Option<string>): (s: Scene)
    ensures s.aurora <==> mounted && !reduced
    ensures |s.blobs| > 0 <==> mounted && !reduced
    ensures s.aurora ==> s.blobs == Blobs(reduced, mobile, resolvedTheme)
    ensures forall i, j :: 0 <= i < j < |s.blobs| ==>
      s.blobs[i].startX != s.blobs[j].startX && s.blobs[i].startY != s.blobs[j].startY
  {
    var animate := mounted && !reduced;
    var bs := if animate then Blobs(reduced, mobile, resolvedTheme) else [];
    assert forall i, j :: 0 <= i < j < |bs| ==>
      bs[i].startX != bs[j].startX && bs[i].startY != bs[j].startY by {
      forall i, j | 0 <= i < j < |bs|
        ensures bs[i].startX != bs[j].startX && bs[i].startY != bs[j].startY
      {
        StartPositionsDistinct(i, j);
      }
    }
    Scene(animate, bs)
  }
}

=== FILE: modular.dfy ===
/**
 * Integer congruence and JavaScript's remainder operator, the arithmetic
 * that index wrapping and the background's position formulas rest on.
 */
module Modular {

  /** A product of a positive factor with a non-zero integer is at least that factor in size. */
  lemma MulAtLeast(m: int, x: int)
    requires m > 0
    ensures x >= 1 ==> m * x >= m
    ensures x <= -1 ==> m * x <= -m
  {
    if x >= 1 {
      assert m * x == m + m * (x - 1);
    } else if x <= -1 {
      assert m * x == -m + m * (x + 1);
    }
  }

  /** Euclidean division is determined by any decomposition `a == m * q + r` with `0 <= r < m`. */
  lemma ModUnique(a: int, m: int, q: int, r: int)
    requires m > 0 && 0 <= r < m && a == m * q + r
    ensures a % m == r && a / m == q
  {
    var q0 := a / m;
    var r0 := a % m;
    assert m * (q - q0) == r0 - r;
    MulAtLeast(m, q - q0);
  }

  /** `a` and `b` leave the same remainder modulo `m`. */
  predicate Congruent(a: int, b: int, m: int)
    requires m > 0
  {
    (a - b) % m == 0
  }

  lemma CongruentByWitness(a: int, b: int, m: int, k: int)
    requires m > 0 && a - b == m * k
    ensures Congruent(a, b, m)
  {
    ModUnique(a - b, m, k, 0);
  }

  lemma CongruentWitness(a: int, b: int, m: int) returns (k: int)
    requires m > 0 && Congruent(a, b, m)
    ensures a - b == m * k
  {
    k := (a - b) / m;
  }

  lemma CongruentSymm(a: int, b: int, m: int)
    requires m > 0 && Congruent(a, b, m)
    ensures Congruent(b, a, m)
  {
    var k := CongruentWitness(a, b, m);
    CongruentByWitness(b, a, m, -k);
  }

  /** Congruence modulo m is transitive. */
  lemma CongruentTrans(a: int, b: int, c: int, m: int)
    requires m > 0 && Congruent(a, b, m) && Congruent(b, c, m)
    ensures Congruent(a, c, m)
  {
    var p := CongruentWitness(a, b, m);
    var q := CongruentWitness(b, c, m);
    CongruentByWitness(a, c, m, p + q);
  }

  /** Adding the same amount to both sides keeps congruence. */
  lemma CongruentAdd(a: int, b: int, c: int, m: int)
    requires m > 0 && Congruent(a, b, m)
    ensures Congruent(a + c, b + c, m)
  {
    var k := CongruentWitness(a, b, m);
    CongruentByWitness(a + c, b + c, m, k);
  }

  /** Two residues in [0, m) that are congruent modulo m are equal. */
  lemma ResidueUnique(a: int, b: int, m: int)
    requires m > 0 && 0 <= a < m && 0 <= b < m && Congruent(a, b, m)
    ensures a == b
  {
    var k := CongruentWitness(a, b, m);
    MulAtLeast(m, k);
  }

  /** JavaScript's `%` on integers: the remainder takes the sign of the
      dividend (truncation toward zero), unlike Dafny's Euclidean `%`. */
  function JsRem(a: int, m: int): (r: int)
    requires m > 0
    ensures a >= 0 ==> 0 <= r < m
    ensures a < 0 ==> -m < r <= 0
    ensures Congruent(a, r, m)
  {
    if a >= 0 then
      CongruentByWitness(a, a % m, m, a / m);
      a % m
    else
      CongruentByWitness(a, -((-a) % m), m, -((-a) / m));
      -((-a) % m)
  }
}

=== FILE: optional.dfy ===
/** A value that may be absent: JavaScript's `undefined`/`null` beside a present value. */
module Optional {

  datatype Option<+T> = None | Some(value: T) {

    /** The present value, or `default` when absent (JavaScript's `??`). */
    function GetOr(default: T): (r: T)
      ensures Some? ==> r == value
      ensures None? ==> r == default
    {
      match this
      case Some(v) => v
      case None => default
    }
  }
}

=== FILE: real_arith.dfy ===
/**
 * Facts about division by a positive real, used where progress values are
 * computed as a share of a total.
 */
module RealArith {

  /** Dividing by a positive real preserves order. */
  lemma DivMonotone(a: real, b: real, m: real)
    requires a <= b && m > 0.0
    ensures a / m <= b / m
  {
    var q := (b - a) / m;
    assert q * m == b - a;
    assert b / m - a / m == q;
  }

  /** A share of at most the whole is in [0, 1]. */
  lemma DivUnit(a: real, m: real)
    requires 0.0 <= a <= m && m > 0.0
    ensures 0.0 <= a / m <= 1.0
  {
    DivMonotone(0.0, a, m);
    DivMonotone(a, m, m);
    assert m / m == 1.0;
  }

  /** A non-positive numerator gives a non-positive share. */
  lemma DivNonPositive(a: real, m: real)
    requires a <= 0.0 && m > 0.0
    ensures a / m <= 0.0
  {
    DivMonotone(a, 0.0, m);
  }

  /** A numerator of at least the whole gives a share of at least one. */
  lemma DivAtLeastOne(a: real, m: real)
    requires a >= m && m > 0.0
    ensures a / m >= 1.0
  {
    DivMonotone(m, a, m);
    assert m / m == 1.0;
  }
}

=== FILE: scroll_indicator.dfy ===
/**
 * The side scroll indicator: a progress bar that follows the page's scroll
 * position and a list of section links of which the one most visible is
 * marked current.
 */
module ScrollIndicator {
  import opened Optional
  import opened RealArith

  /** A section link: the id of the element it points to and its label text. */
  datatype Section = Section(id: string, text: string)

  /** What an intersection observer reports for one observed section. */
  datatype Entry = Entry(targetId: string, isIntersecting: bool, ratio: Option<real>)

  /** The indicator's state: the current section and the scroll progress. */
  datatype Indicator = Indicator(activeId: string, progress: real)

  /** `clamp(value, min, max)`, written as `Math.min(max, Math.max(min, value))`. */
  function Clamp(value: real, min: real, max: real): (r: real)
    ensures min <= max ==> min <= r <= max
    ensures min <= value <= max ==> r == value
    ensures r <= max
    ensures min <= max && value < min ==> r == min
    ensures min <= max && value > max ==> r == max
  {
    var lower := if min >= value then min else value;
    if max <= lower then max else lower
  }

  /** The scrollable distance, never less than one pixel. */
  function MaxScroll(docHeight: real, viewHeight: real): (m: real)
    ensures m >= 1.0 && m >= docHeight - viewHeight
    ensures m == 1.0 || m == docHeight - viewHeight
  {
    if docHeight - viewHeight >= 1.0 then docHeight - viewHeight else 1.0
  }

  /** `updateProgress`: the fraction of the scrollable distance already scrolled. */
  function ScrollProgress(scrollTop: real, docHeight: real, viewHeight: real): (p: real)
    ensures 0.0 <= p <= 1.0
    ensures scrollTop <= 0.0 ==> p == 0.0
    ensures scrollTop >= MaxScroll(docHeight, viewHeight) ==> p == 1.0
    ensures 0.0 <= scrollTop <= MaxScroll(docHeight, viewHeight) ==>
      p * MaxScroll(docHeight, viewHeight) == scrollTop
  {
    ProgressRatio(scrollTop, MaxScroll(docHeight, viewHeight));
    Clamp(scrollTop / MaxScroll(docHeight, viewHeight), 0.0, 1.0)
  }

  /** Scrolling further down never moves the bar back. */
  lemma ScrollProgressMonotone(a: real, b: real, docHeight: real, viewHeight: real)
    requires a <= b
    ensures ScrollProgress(a, docHeight, viewHeight) <= ScrollProgress(b, docHeight, viewHeight)
  {
    var m := MaxScroll(docHeight, viewHeight);
    DivMonotone(a, b, m);
    ClampMonotone(a / m, b / m, 0.0, 1.0);
  }

  lemma ProgressRatio(scrollTop: real, m: real)
    requires m >= 1.0
    ensures scrollTop <= 0.0 ==> scrollTop / m <= 0.0
    ensures scrollTop >= m ==> scrollTop / m >= 1.0
    ensures scrollTop / m * m == scrollTop
  {
    if scrollTop <= 0.0 {
      DivNonPositive(scrollTop, m);
    }
    if scrollTop >= m {
      DivAtLeastOne(scrollTop, m);
    }
  }

  /** Clamping into a non-empty range preserves order. */
  lemma ClampMonotone(a: real, b: real, min: real, max: real)
    requires a <= b && min <= max
    ensures Clamp(a, min, max) <= Clamp(b, min, max)
  {
  }

  /** JavaScript's `Math.round`: the nearest integer, halves rounded up. */
  function JsRound(x: real): (n: int)
    ensures n as real - 0.5 <= x < n as real + 0.5
  {
    (x + 0.5).Floor
  }

  /** The filled part of the 220px track: `Math.round(progress * 220)`. */
  function BarHeight(progress: real): (h: int)
    ensures 0.0 <= progress <= 1.0 ==> 0 <= h <= 220
    ensures progress == 0.0 ==> h == 0
    ensures progress == 1.0 ==> h == 220
    ensures h as real - 0.5 <= progress * 220.0 < h as real + 0.5
  {
    JsRound(progress * 220.0)
  }

  /** The bar never shrinks while the progress grows. */
  lemma BarHeightMonotone(a: real, b: real)
    requires a <= b
    ensures BarHeight(a) <= BarHeight(b)
  {
    var ha := BarHeight(a);
    var hb := BarHeight(b);
    assert a * 220.0 <= b * 220.0;
    assert ha as real - 0.5 < hb as real + 0.5;
  }

  /** The ratio an entry is ranked by, a missing ratio counting as 0. */
  function RankOf(e: Entry): real
  {
    e.ratio.GetOr(0.0)
  }

  /** Entry `k` is what a stable descending sort of the intersecting entries
      puts first: it intersects, no intersecting entry ranks higher, and every
      intersecting entry before it ranks strictly lower. */
  predicate IsTop(entries: seq<Entry>, k: int)
  {
    && 0 <= k < |entries|
    && entries[k].isIntersecting
    && (forall i :: 0 <= i < |entries| && entries[i].isIntersecting ==> RankOf(entries[i]) <= RankOf(entries[k]))
    && (forall i :: 0 <= i < k && entries[i].isIntersecting ==> RankOf(entries[i]) < RankOf(entries[k]))
  }

  /** There is only ever one top entry. */
  lemma IsTopUnique(entries: seq<Entry>, a: int, b: int)
    requires IsTop(entries, a) && IsTop(entries, b)
    ensures a == b
  {
  }

  /** Picks the entry the observer callback reads as `visible[0]`. */
  method TopVisible(entries: seq<Entry>) returns (top: Option<nat>)
    ensures top.None? <==> forall i :: 0 <= i < |entries| ==> !entries[i].isIntersecting
    ensures top.Some? ==> IsTop(entries, top.value)
  {
    top := None;
    var i := 0;
    while i < |entries|
      invariant 0 <= i <= |entries|
      invariant top.None? ==> forall j :: 0 <= j < i ==> !entries[j].isIntersecting
      invariant top.Some? ==> top.value < i && IsTop(entries[..i], top.value)
    {
      var e := entries[i];
      if e.isIntersecting && (top.None? || RankOf(e) > RankOf(entries[top.value])) {
        top := Some(i);
      }
      i := i + 1;
    }
    assert entries[..i] == entries;
  }

  /** The observer callback: the top intersecting section becomes current,
      unless its id is empty; with nothing intersecting, nothing changes. */
  method OnIntersect(activeId: string, entries: seq<Entry>) returns (next: string)
    ensures (forall i :: 0 <= i < |entries| ==> !entries[i].isIntersecting) ==> next == activeId
    ensures (exists i :: 0 <= i < |entries| && entries[i].isIntersecting) ==>
      exists k :: IsTop(entries, k) &&
        next == (if entries[k].targetId != "" then entries[k].targetId else activeId)
  {
    var top := TopVisible(entries);
    next := activeId;
    if top.Some? {
      var id := entries[top.value].targetId;
      if id != "" {
        next := id;
      }
    }
  }

  /** The state of the first render: the first section is current (or none,
      as ""), and progress is 0 until the mount effect first measures it. */
  function Init(sections: seq<Section>): (s: Indicator)
    ensures |sections| == 0 ==> s.activeId == ""
    ensures |sections| > 0 ==> s.activeId == sections[0].id
    ensures s.progress == 0.0
  {
    Indicator(if |sections| > 0 then sections[0].id else "", 0.0)
  }

  /** Which links are marked current. */
  function CurrentFlags(sections: seq<Section>, activeId: string): (flags: seq<bool>)
    ensures |flags| == |sections|
    ensures forall i :: 0 <= i < |flags| ==> (flags[i] <==> sections[i].id == activeId)
  {
    seq(|sections|, i requires 0 <= i < |sections| => sections[i].id == activeId)
  }

  predicate DistinctIds(sections: seq<Section>)
  {
    forall i, j :: 0 <= i < j < |sections| ==> sections[i].id != sections[j].id
  }

  /** With distinct section ids at most one link is current. */
  lemma AtMostOneCurrent(sections: seq<Section>, activeId: string, i: int, j: int)
    requires DistinctIds(sections)
    requires 0 <= i < |sections| && 0 <= j < |sections|
    requires CurrentFlags(sections, activeId)[i] && CurrentFlags(sections, activeId)[j]
    ensures i == j
  {
  }

  /** The rendered indicator: bar height and current-link flags. */
  datatype View = View(barHeight: int, current: seq<bool>)

  /** Nothing renders without sections; otherwise the bar and one flag per link. */
  function Render(sections: seq<Section>, s: Indicator): (v: Option<View>)
    ensures v.None? <==> |sections| == 0
    ensures v.Some? ==> |v.value.current| == |sections|
    ensures v.Some? && 0.0 <= s.progress <= 1.0 ==> 0 <= v.value.barHeight <= 220
    ensures v.Some? ==> v.value.barHeight as real - 0.5 <= s.progress * 220.0 < v.value.barHeight as real + 0.5
    ensures v.Some? ==> forall i :: 0 <= i < |sections| ==> (v.value.current[i] <==> sections[i].id == s.activeId)
  {
    if |sections| == 0 then None
    else Some(View(BarHeight(s.progress), CurrentFlags(sections, s.activeId)))
  }

  /** When the current id belongs to section k and ids are distinct, the
      rendered links mark section k and no other. */
  lemma RenderMarksOnly(sections: seq<Section>, s: Indicator, k: int)
    requires DistinctIds(sections)
    requires 0 <= k < |sections| && s.activeId == sections[k].id
    ensures Render(sections, s).Some?
    ensures forall i :: 0 <= i < |sections| ==> (Render(sections, s).value.current[i] <==> i == k)
  {
    var v := Render(sections, s).value;
    forall i | 0 <= i < |sections|
      ensures v.current[i] <==> i == k
    {
      if i < k {
        assert sections[i].id != sections[k].id;
      } else if k < i {
        assert sections[k].id != sections[i].id;
      }
    }
  }

  /** On the first render the bar is empty and, when ids are distinct,
      exactly the first link is current. */
  lemma InitMarksFirstOnly(sections: seq<Section>)
    requires |sections| > 0 && DistinctIds(sections)
    ensures var v := Render(sections, Init(sections));
      && v.Some? && v.value.barHeight == 0
      && v.value.current[0]
      && forall i :: 0 < i < |sections| ==> !v.value.current[i]
  {
    var flags := CurrentFlags(sections, sections[0].id);
    forall i | 0 < i < |sections|
      ensures !flags[i]
    {
      assert sections[0].id != sections[i].id;
    }
  }
}

=== FILE: theme_toggle.dfy ===
/**
 * The theme toggle button: one click switches between the light and the
 * dark theme, and the icon shows which theme a click would leave.
 */
module ThemeToggle {
  import opened Optional

  /** The theme is dark only when it is literally "dark"; "light", "system"
      and an unset theme all count as not dark. */
  predicate IsDark(theme: Option<string>)
  {
    theme == Some("dark")
  }

  /** The theme a click asks for. */
  function Toggle(theme: Option<string>): (next: string)
    ensures next == "light" || next == "dark"
    ensures next == "light" <==> IsDark(theme)
  {
    if IsDark(theme) then "light" else "dark"
  }

  /** The theme after a click. */
  function Click(theme: Option<string>): (next: Option<string>)
    ensures next.Some? && (next.value == "light" || next.value == "dark")
    ensures IsDark(next) <==> !IsDark(theme)
  {
    Some(Toggle(theme))
  }

  /** From either concrete theme, two clicks come back to it. */
  lemma TwoClicksReturn(theme: Option<string>)
    requires theme == Some("light") || theme == Some("dark")
    ensures Click(Click(theme)) == theme
  {
  }

  /** From any theme, the first click lands on light or dark, after which
      clicks alternate with period two. */
  lemma ClicksAlternate(theme: Option<string>)
    ensures Click(Click(Click(theme))) == Click(theme)
  {
  }

  datatype Icon = Sun | Moon

  /** The sun shows on the dark theme, the moon on any other. */
  function IconFor(theme: Option<string>): (icon: Icon)
    ensures icon == Sun <==> IsDark(theme)
  {
    if IsDark(theme) then Sun else Moon
  }

  /** Every click swaps the icon. */
  lemma ClickSwapsIcon(theme: Option<string>)
    ensures IconFor(Click(theme)) != IconFor(theme)
  {
  }
}
